=== FILE: README.md ===
# Civic issue portal: issue routes and dashboards in Dafny

This project models the core of a civic-issue reporting portal. Citizens report
issues, optionally with a photo. Administrators change an issue's status. The
owner of an issue, or an administrator, may delete it. The model covers three
parts:

- **The upload step of the issues router.** This is the multer configuration:
  the file filter, the 5,000,000-byte size limit, and the name under which an
  accepted image is stored (upload time in milliseconds followed by the
  original extension). `path.extname` and `String.prototype.toLowerCase` are
  modelled with it (modules `NodePath` and `Strings`).
- **The five handlers of `/api/issues`.** These are POST `/`, GET `/`,
  GET `/my-issues`, PATCH `/:id/status` and DELETE `/:id`. Each one is a pure
  function from a store (a sequence of issues in insertion order) and a request
  to a new store and a response (module `IssueRoutes`). The authentication
  middleware appears as the `User` it attaches to the request. The clock and
  the new document id are parameters.
- **The two dashboards.** The administrator's dashboard has a redirect guard,
  builds the fetch URL, computes the status counters, keeps a list after a
  delete and derives a CSS class for each status. The citizen's dashboard
  builds the same fetch URL, shows the delete control only to the issue's
  owner and shows the admin badge and "Admin Panel" button only to
  administrators (modules `Client`, `AdminDashboard` and `Dashboard`).

The proved properties fall into four groups:

- **Upload and filter.**
  - The filter decision equals "both the lower-cased extension and the MIME
    type contain one of jpeg, jpg, png, gif".
  - The filter lower-cases the file name's extension itself; the MIME type
    it sees is already lower-cased by the multipart parser, so neither case
    matters to the verdict.
  - The size limit is inclusive (the multipart parser's 0.x behaviour; see
    "## Left out").
  - A stored image path reads back to its upload time and extension.
- **Handlers.**
  - A client cannot choose the status or the owner of a new issue.
  - Listings are permutations of the selected issues, newest first.
  - Every handler keeps ids unique.
  - A delete removes exactly the target issue and keeps the order of the rest.
  - Status changes have no transition guard.
- **Client and server agreement.**
  - The status filter the client chooses is the one the server reads back.
  - When "All Statuses" is selected, each status counter equals the length of
    the list the server returns for that status.
  - The list the administrator's dashboard keeps after a delete holds the same
    issues as a fresh fetch and is still newest first.
- **Delete control.** Every delete the citizen dashboard offers is allowed by
  the server. An administrator viewing another user's issue is exactly the
  case where the server allows a delete that the dashboard does not offer.

Modelling decisions:

- Stored ids are compared as strings. `findById`, `findByIdAndUpdate` and
  `findByIdAndDelete` act on the first issue with the id.
- Unique ids are an invariant that every handler preserves (`UniqueIds`). It
  is not a precondition of the handlers.
- `sort({ createdAt: -1 })` is a stable insertion sort. The handlers' contracts
  promise only what the store promises: the same multiset, with `createdAt`
  non-increasing.
- The Issue schema's defaults (status, timestamps) and its validation are
  parameters (`SchemaDefaults`, `schemaAccepts`), because `models/Issue.js` is
  not part of this model.
- An upload refused by the filter or by the size limit is passed by multer to
  the next error handler; the model takes that to be Express's default one,
  which answers 500 (see "## Left out"). The route handler never runs and the
  store is unchanged. The filter decides before the size limit is reached.
- `/jpeg|jpg|png|gif/.test` is an unanchored substring search.
- `path.extname` follows Node's POSIX algorithm:
  - Trailing separators are skipped and only the last component is used.
  - The extension runs from that component's last '.'.
  - A name whose only '.' is its first character, and the name "..", have no
    extension.

Behaviour of the code that the model keeps as it is:

- The filter checks the extension and the MIME type independently, so
  "photo.png" sent as "image/gif" passes (`Upload.PngPassesFilter` with
  `Upload.GifMimeTypeMentionsImageType`).
- The counters are computed from the list on screen, which is the filtered
  list when a status is selected: then the selected status's counter equals
  the total and the other three are zero.
- A refused upload (wrong type or too large) gets no dedicated response from
  the router; with no error middleware after it, the answer is a 500.
- The create handler never sets `status`; whatever the schema's default is
  becomes the new issue's status.
- PATCH stores any status value the body carries, because `findByIdAndUpdate`
  runs without update validators (`IssueRouteProperties.AnyStatusChangeIsAccepted`).
- The citizen dashboard (Dashboard.js line 140) compares the stored login
  user's `id` with `issue.userId`;
  the server compares the string form of the authenticated user's `_id`. The
  model keeps the two users apart and states the agreement it relies on as
  `Client.SameAccount`: same identifier, same role. Every lemma that links
  what a dashboard shows to what the server allows requires it, and
  `Dashboard.MismatchedAccountIsForbidden` shows what happens without it.

## Model

| member | source | states |
|---|---|---|
| Strings.Lower | backend/routes/issues.js:23 | `toLowerCase` keeps the length and lower-cases every ASCII capital, position by position |
| Strings.ContainsIffOccurs | backend/routes/issues.js:22 | the search for one alternative of the pattern succeeds exactly when the alternative occurs at some position, in both directions |
| Strings.Decimal | backend/routes/issues.js:14 | the decimal form of `Date.now()` in a file name is a non-empty digit string with no leading zero unless the time is 0 |
| Strings.DecimalRoundTrip | backend/routes/issues.js:14 | the digits of the upload time read back to the same number |
| NodePath.ExtName | backend/routes/issues.js:14 | `path.extname` gives either nothing or a '.' followed by characters that are neither '.' nor '/' |
| NodePath.ExtNameOfDottedName | backend/routes/issues.js:23 | a name "stem.ext" with a non-empty stem and a dot-free ext has extension ".ext" |
| NodePath.ExtNameCommutesWithLower | backend/routes/issues.js:23 | lower-casing the file name before or after taking its extension gives the same result |
| Upload.MatchesImagePattern | backend/routes/issues.js:22 | the pattern's `test`: one of the alternatives jpeg, jpg, png, gif is found by an unanchored search; `Upload.PatternIsSubstringSearch` relates it to an occurrence at some position |
| Upload.PatternIsSubstringSearch | backend/routes/issues.js:22 | the regular expression accepts a string exactly when one of jpeg, jpg, png, gif occurs in it |
| Upload.FileFilter | backend/routes/issues.js:21-30 | a file is accepted exactly when its lower-cased extension and its MIME type, as multer reports it in `file.mimetype`, each contain an image type |
| Upload.StoredFileName | backend/routes/issues.js:14 | the disk file name, upload time then original extension; behind "/uploads/" it parses back to that time and extension |
| Upload.AcceptUpload | backend/routes/issues.js:13-30 | no file gives the empty image path; a filtered-out file gives "Images only!", an accepted file over 5,000,000 bytes gives the size error, and otherwise the path is "/uploads/" + upload time + original extension, which parses back to both |
| Upload.ImagePathRoundTrip | backend/routes/issues.js:14 | a stored image path determines the upload time and the extension it was built from |
| Upload.FilterIgnoresNameCase | backend/routes/issues.js:23 | changing the file name's case never changes the filter's verdict |
| Upload.DottedNameAccepted | backend/routes/issues.js:23-26 | "stem.ext" passes when ".ext" lower-cased and the MIME type each contain an image type |
| Upload.UpperCaseExtensionAccepted | backend/routes/issues.js:23 | "stem.JPG" passes with any MIME type that contains an image type |
| Upload.ExtensionContainingTypeAccepted | backend/routes/issues.js:22-23 | the search is unanchored, so "stem.jpgx" passes as well |
| Upload.MissingExtensionRejected | backend/routes/issues.js:23-28 | a name without a '.' and a hidden name such as ".png" are refused whatever their MIME type |
| Upload.ExecutableRejected | backend/routes/issues.js:22-28 | an extension containing none of j, p, g in either case, such as "exe", is refused whatever its MIME type |
| Upload.DottedExtensionHasNoImageType | backend/routes/issues.js:22-23 | an extension ".ext" whose `ext` has none of j, p, g in either case contains no image type once lower-cased |
| Upload.ReceivedFile | backend/routes/issues.js:21-24 | the file multer hands to the filter: the declared name and size, and the declared content type lower-cased, so the MIME type holds no upper-case letter |
| Upload.UpperCaseMimeTypeRejected | backend/routes/issues.js:24 | the filter's own MIME test is case-sensitive: a `file.mimetype` of "IMAGE/PNG" would be refused |
| Upload.DeclaredTypeCaseIgnored | backend/routes/issues.js:24 | because multer lower-cases the declared content type first, its case never changes the filter's verdict |
| Upload.UpperCaseDeclaredTypeAccepted | backend/routes/issues.js:21-24 | a "stem.png" part declared as "IMAGE/PNG" is accepted |
| Upload.NoExtensionIsRejected | backend/routes/issues.js:23 | a last component without a usable '.' has no extension and is refused |
| Upload.NoImageType | backend/routes/issues.js:22 | a string without the letters j, p and g contains no image type |
| Upload.GifMimeTypeMentionsImageType | backend/routes/issues.js:24 | the MIME type "image/gif" passes the MIME test |
| Upload.PngPassesFilter | backend/routes/issues.js:21-29 | "stem.png" passes with any MIME type containing an image type, including a different family |
| Upload.SizeLimitIsInclusive | backend/routes/issues.js:20 | an accepted image of exactly 5,000,000 bytes is stored and one of 5,000,001 bytes is refused as too large |
| Upload.SizeExamples | backend/routes/issues.js:20 | a 6,000,000-byte image is refused and a 100,000-byte one gets a non-empty path |
| IssueModel.FindIndex | backend/routes/issues.js:101 | `findById` finds the first issue with the id, and finds nothing exactly when no issue has it |
| IssueModel.FindIndexOfMember | backend/routes/issues.js:101 | with unique ids, looking up a stored issue's id finds that issue |
| IssueModel.RemoveAtMembers | backend/routes/issues.js:112 | with unique ids, removing the found issue leaves exactly the issues with other ids |
| IssueModel.Insert | backend/routes/issues.js:61 | inserting into a newest-first list keeps it newest first and adds exactly that issue |
| IssueModel.SortNewestFirst | backend/routes/issues.js:61 | `sort({ createdAt: -1 })` returns the same multiset of issues with `createdAt` non-increasing |
| IssueModel.FilterKeepsNewestFirst | frontend/src/components/AdminDashboard.js:65 | filtering a newest-first list keeps it newest first |
| Sequences.Filter | frontend/src/components/AdminDashboard.js:65 | `filter` keeps each element the predicate accepts as often as it occurred and drops the others |
| Sequences.FilterIsSubsequence | frontend/src/components/AdminDashboard.js:65 | `filter` never reorders the elements it keeps |
| Sequences.RemoveAtIsSubsequence | backend/routes/issues.js:112 | deleting one document keeps the relative order of the others |
| IssueRoutes.BuildIssue | backend/routes/issues.js:38-46 | the new document: title, description, category and location from the form, the image path, the caller's id and name, and the schema's defaults for status and timestamps; `IssueRouteProperties.CreateReadsOnlyFourFields` states that no other form field matters |
| IssueRoutes.CreateIssue | backend/routes/issues.js:34-53 | 201 exactly when the upload is accepted, the id is new and the schema accepts the document; then "Issue reported successfully" and the issue is appended, carrying the form's four text fields, the caller's id and name, the schema's defaults and the upload's image path (empty exactly when no file was sent); otherwise 500 with the store unchanged |
| IssueRoutes.StatusSelects | backend/routes/issues.js:58-59 | an absent or empty `status` query selects every issue, any other value selects the issues with exactly that status; `IssueRouteProperties.EmptyQueryListsAll` states the empty case |
| IssueRoutes.GetIssues | backend/routes/issues.js:56-66 | 200 with every stored issue whose status equals a non-empty `status` query (all issues when the query is absent or empty), each as often as stored, newest first |
| IssueRoutes.GetMyIssues | backend/routes/issues.js:69-76 | 200 with exactly the caller's issues, each as often as stored, newest first |
| IssueRoutes.UpdateStatus | backend/routes/issues.js:79-96 | 404 "Issue not found" with the store unchanged, or the found issue's status and update time are replaced, every other issue is unchanged, and the updated issue is returned |
| IssueRoutes.MayDelete | backend/routes/issues.js:108 | the server's delete rule: the caller owns the issue or has the role "admin"; `Dashboard.HiddenButAllowed` compares it with what the dashboard shows |
| IssueRoutes.DeleteIssue | backend/routes/issues.js:99-117 | 404 for an unknown id and 403 for a caller who is neither owner nor administrator, both leaving the store unchanged; otherwise 200 and the store loses exactly the target issue and keeps the order of the rest |
| IssueRouteProperties.CreateReadsOnlyFourFields | backend/routes/issues.js:36-46 | two forms that agree on title, description, category and location give the same outcome |
| IssueRouteProperties.FormCannotSetStatusOrOwner | backend/routes/issues.js:36-46 | adding a status or an owner id to the form changes nothing |
| IssueRouteProperties.CreateKeepsIdsUnique | backend/routes/issues.js:38-48 | creating keeps stored ids unique |
| IssueRouteProperties.UpdateKeepsIdsUnique | backend/routes/issues.js:82-86 | a status update keeps stored ids unique |
| IssueRouteProperties.DeleteKeepsIdsUnique | backend/routes/issues.js:112 | a delete keeps stored ids unique |
| IssueRouteProperties.DeleteRemovesExactlyThatIssue | backend/routes/issues.js:101-113 | after a successful delete an issue is stored exactly when it was stored before and has another id |
| IssueRouteProperties.DeletedIssueIsNotListed | backend/routes/issues.js:112 | after a successful delete neither listing returns an issue with that id |
| IssueRouteProperties.AnyStatusChangeIsAccepted | backend/routes/issues.js:81-92 | any new status is accepted from any current status, and only status and update time change |
| IssueRouteProperties.ForbiddenDeleteChangesNothing | backend/routes/issues.js:108-110 | a caller who is neither owner nor administrator gets 403 and the store stays as it was |
| IssueRouteProperties.EmptyQueryListsAll | backend/routes/issues.js:58-59 | an empty `status` query lists the same as no query |
| IssueRouteProperties.CreatedIssueIsListedAsMine | backend/routes/issues.js:38-49 | an issue just reported appears in the reporter's own listing with the form's four fields |
| Client.EndpointHasNoQuery | frontend/src/components/AdminDashboard.js:25 | the bare endpoint carries no status query |
| Client.IssuesUrl | frontend/src/components/AdminDashboard.js:23-25 | the URL starts with the endpoint, carries "?status=" exactly when a filter is chosen, and is the bare endpoint when none is |
| Client.QueryValueOfSafe | frontend/src/components/AdminDashboard.js:24 | a value without '&', '#', '+' or '%' is read back unchanged |
| Client.FilterReachesServer | frontend/src/components/AdminDashboard.js:23-25 | the server reads back exactly the chosen filter as `status`, and no `status` at all for the empty filter |
| Client.FilterOptionsAreSafe | frontend/src/components/AdminDashboard.js:139-145 | every option of the status drop-down survives that round trip |
| Client.RequestedStatus | backend/routes/issues.js:58 | how the server reads `status` from a URL of this client: present exactly when the URL starts with the endpoint and "?status=", and never holding '&' or '#' |
| Client.SameAccount | frontend/src/components/Dashboard.js:140 | the assumption that the dashboard's stored user and the server's authenticated user have the same identifier and role |
| Client.RemoveIssue | frontend/src/components/AdminDashboard.js:65 | the list after a delete holds no issue with the deleted id and every other issue as often as before, in the same order (the same filter is at frontend/src/components/Dashboard.js line 46) |
| Client.StatusClass | frontend/src/components/AdminDashboard.js:183 | `replace(' ', '-')`: the class has the status's length, keeps every non-space character, holds a space only where the status does, and has a hyphen in place of a space exactly when the status has one (the same class is computed at frontend/src/components/Dashboard.js line 131) |
| Client.SpaceFreeStatusClass | frontend/src/components/AdminDashboard.js:183 | a status without spaces is its own CSS class |
| Client.TwoWordStatusClass | frontend/src/components/AdminDashboard.js:183 | a space-free first word, one space and any rest (spaces included) become the first word, a hyphen and the unchanged rest |
| Client.InProgressClass | frontend/src/components/AdminDashboard.js:183 | "in progress" gets the class "in-progress" |
| Client.StatusClassSpaceFree | frontend/src/components/AdminDashboard.js:183 | only the first space is replaced: the class has no space exactly when the status has at most one |
| AdminDashboard.OnLoad | frontend/src/components/AdminDashboard.js:12-25 | a non-administrator is redirected to "/dashboard" and nothing is fetched; an administrator fetches the bare endpoint for "All Statuses" and otherwise a URL that carries the filter, which the server reads back |
| AdminDashboard.CountStatus | frontend/src/components/AdminDashboard.js:84-87 | one counter: never more than the list's length, and zero exactly when no listed issue has that status |
| AdminDashboard.CountIsOccurrences | frontend/src/components/AdminDashboard.js:84-87 | a counter is the number of listed issues whose status is that string |
| AdminDashboard.StatusStats | frontend/src/components/AdminDashboard.js:81-89 | the total is the list's length and each counter is the number of occurrences of its status, never more than the total |
| AdminDashboard.KnownCountBound | frontend/src/components/AdminDashboard.js:84-87 | the four counters sum to at most the list's length, with equality exactly when every issue has one of the four statuses |
| AdminDashboard.CountersAddUpToTotal | frontend/src/components/AdminDashboard.js:81-89 | the counters add up to the total exactly when every issue has a known status, and never exceed it |
| AdminDashboard.ListAllIsPermutation | backend/routes/issues.js:58-61 | the unfiltered listing holds exactly the stored issues |
| AdminDashboard.ListByStatusIsCounted | backend/routes/issues.js:58-61 | listing by a status gives the issues the dashboard's counter filter selects |
| AdminDashboard.CounterMatchesFilteredFetch | frontend/src/components/AdminDashboard.js:84-87 | the counter of a status on the unfiltered list equals the length of the list the server returns for that status |
| AdminDashboard.UniqueIdsNoDuplicates | backend/routes/issues.js:61 | a store with unique ids holds each issue once |
| AdminDashboard.ListingIsDuplicateFree | backend/routes/issues.js:61 | a listing of such a store holds each issue once |
| AdminDashboard.SameIssuesAfterDelete | frontend/src/components/AdminDashboard.js:65 | the list kept after a successful delete and a fresh listing hold the same issues |
| AdminDashboard.ListsAfterDeleteAreDuplicateFree | frontend/src/components/AdminDashboard.js:65 | neither of those lists holds an issue twice |
| AdminDashboard.DeleteKeepsListConsistent | frontend/src/components/AdminDashboard.js:54-69 | the list kept after a successful delete is newest first and is a permutation of what a fresh fetch would return |
| AdminDashboard.AdminDeleteSucceeds | frontend/src/components/AdminDashboard.js:203-208 | every delete an administrator can press on a stored issue succeeds on the server, for the same account |
| Dashboard.ShowsDelete | frontend/src/components/Dashboard.js:140 | the delete control appears only when the issue's `userId` equals the stored user's `id` |
| Dashboard.ShowsAdminControls | frontend/src/components/Dashboard.js:68-82 | the admin badge and the "Admin Panel" button appear only for the role "admin" |
| Dashboard.FetchUrl | frontend/src/components/Dashboard.js:12-21 | the citizen dashboard always fetches: the bare endpoint for "All Statuses", otherwise a URL with "?status=" from which the server reads back exactly the chosen filter |
| Dashboard.ShownDeleteIsAllowed | frontend/src/components/Dashboard.js:140 | for the same account, a shown delete control is one the server's rule allows |
| Dashboard.HiddenButAllowed | frontend/src/components/Dashboard.js:140 | for the same account, the server allows a delete the dashboard hides exactly when an administrator views another user's issue |
| Dashboard.CitizenViewMatchesServer | frontend/src/components/Dashboard.js:140 | for the same account and a user who is not an administrator, the control is shown exactly when the server allows the delete |
| Dashboard.MismatchedAccountIsForbidden | frontend/src/components/Dashboard.js:140 | if the stored user's id differs from the authenticated caller's and the caller is no administrator, a shown control leads to a refused delete |
| Dashboard.AdminMissesDeleteOnOthersIssue | frontend/src/components/Dashboard.js:140 | an administrator sees no control on a citizen's issue, though the server deletes it for the same account |
| Dashboard.ShownDeleteSucceeds | frontend/src/components/Dashboard.js:140-147 | for the same account, pressing a shown control on a stored issue gets 200 and the issue is no longer stored |
| Dashboard.ShownDeleteKeepsListConsistent | frontend/src/components/Dashboard.js:46 | after a shown delete control is pressed, the kept list is newest first and holds the same issues as a fresh fetch |
| Dashboard.AdminControlsMatchAdminView | frontend/src/components/Dashboard.js:68-82 | the badge and the "Admin Panel" button appear exactly for the users the administrator's dashboard lets in |

## Left out

- The authentication middleware (`auth`, `adminAuth`): token checking and the administrator guard on PATCH are not part of this model. The caller is the `User` the middleware attaches. `UpdateStatus` assumes the guard has passed.
- The Issue schema (`models/Issue.js`) is not part of this model. Its default status, its timestamps and its validation are parameters. Nothing is asserted about the values it chooses.
- Malformed ids: Mongoose's cast error (a 500) for an id that is not an ObjectId is not modelled. Ids are plain strings that either match or do not.
- A failing database (`find`, `save`, `findByIdAndUpdate`, `findByIdAndDelete` throwing, hence 500): the store never fails here, except that `save` fails on a duplicate id or a schema refusal.
- The error text in a 500 body (`error.message`) and the exact body produced by Express's default error handler: the model keeps only the status code and the upload error kind.
- Disk writes of multer's disk storage, the "uploads/" destination directory, and streaming: the file is its name, MIME type and size.
- `Date.now()` becomes the `uploadTime` and `now` parameters. Two uploads in the same millisecond with the same extension would collide on disk; that is not modelled.
- Strings.Decimal: writes every time as plain digits; JavaScript switches to exponent notation from 10^21 ms, far beyond any real clock.
- Strings.Lower: lower-cases ASCII letters only, so `|r| == |s|` holds in this model, whereas full Unicode case mapping can lengthen a string (U+0130 becomes "i" followed by U+0307). The filter's verdict is unaffected: the only non-ASCII characters that lower-case to ASCII letters are U+0130 (to 'i', always followed by U+0307, so it cannot complete "gif") and U+212A (to 'k', in no image type), and none lower-cases to '.' or '/'.
- Client.RequestedStatus: percent-encoding and the decoding of '+' are not modelled; the round trip is stated for values without '&', '#', '+' and '%', which covers every drop-down option.
- IssueRoutes.StatusSelects and IssueRoutes.Form: only string values are modelled. Express's extended query parser turns `?status=a&status=b` into an array and `?status[$ne]=open` into an object, which `Issue.find` reads as a query operator (listing every issue whose status is not "open"); repeated multipart text fields likewise become arrays in `req.body`. `Option<string>` and `map<string, string>` cannot hold such values, so these requests are not modelled. A PATCH body without `status` is not modelled either.
- IssueRoutes.CreateIssue: the other refusals of `upload.single('image')` are not modelled: a file sent under another field name and a second "image" file (multer's LIMIT_UNEXPECTED_FILE), and multer's limits on parts, fields and field sizes. Each is passed to the error handler and answered with a 500 before the handler runs, with the store unchanged; the model's `file` is the one "image" file or none.
- Upload.ReceivedFile and Upload.UploadedFile: of the multipart parser's normalisation only the lower-casing of the content type is modelled. Dropping its parameters ("image/png; x=y" becomes "image/png"), the default type for a part without a valid content type, and the stripping of directories from the declared file name are not; `originalName` is the name multer reports.
- Upload.AcceptUpload and Upload.SizeLimitIsInclusive: assume the 0.x multipart parser (busboy) of multer up to 1.4.4, which refuses a file only when it exceeds `fileSize`. The 1.x parser used by multer 1.4.5-lts.1 and later also refuses a file of exactly 5,000,000 bytes. The dependency version is not part of the modelled files.
- IssueRoutes.CreateIssue: the 500 for a refused upload assumes the application installs no error middleware after this router, so Express's default handler answers; the application's entry file is not part of this model.
- Tie order of the sort: issues created in the same millisecond may come back in any order, so the listing contracts promise a permutation with non-increasing `createdAt`, not a particular order.
- Client.SameAccount: the users route and the login response, which decide what `id` and `role` the stored user carries, are not part of this model, so the agreement between the dashboard's user and the server's user is assumed, not derived.
- Concurrency between requests: each handler is one atomic step on the store.
- React rendering, `useState`/`useEffect` scheduling, `axios`, `localStorage`, `window.confirm` and `alert`: only the decisions they carry are modelled (which URL is fetched, which list is kept, which controls appear).
- The admin dashboard's status drop-down per card (`handleStatusUpdate`, AdminDashboard.js lines 39-52) sends a PATCH and refetches; the PATCH itself is `IssueRoutes.UpdateStatus`, the client side is not modelled.
- `formatDate`, `toUpperCase` on the status label, and image URLs in `<img>` are display only.
- `ReportIssue.js`, `Login.js` and `UserDashboard.js` are not part of this model.

=== FILE: admin_dashboard.dfy ===
/** The administrator's dashboard: its guard, its status counts, and its list
    after a delete. */
module AdminDashboard {
  import opened Results
  import opened Strings
  import opened Sequences
  import opened IssueModel
  import opened IssueRoutes
  import opened IssueRouteProperties
  import opened Client

  /** What the dashboard does when it loads or its filter changes. */
  datatype Effect = Redirect(path: string) | Fetch(url: string)

  /** A non-administrator is sent to "/dashboard" and nothing is fetched;
      an administrator fetches the issues for the current filter. */
  function OnLoad(user: User, filter: string): (e: Effect)
    ensures e.Redirect? <==> user.role != AdminRole
    ensures e.Redirect? ==> e.path == "/dashboard"
    ensures e.Fetch? ==> StartsWith(e.url, IssuesEndpoint)
    ensures e.Fetch? ==> ((exists i :: OccursAt(e.url, StatusParam, i)) <==> filter != "")
    ensures e.Fetch? && filter == "" ==> e.url == IssuesEndpoint
    ensures e.Fetch? && QuerySafe(filter) ==>
      RequestedStatus(e.url) == if filter == "" then None else Some(filter)
  {
    if user.role != AdminRole then Redirect("/dashboard")
    else if QuerySafe(filter) then
      FilterReachesServer(filter);
      Fetch(IssuesUrl(filter))
    else Fetch(IssuesUrl(filter))
  }

  /** The five counters shown above the list. */
  datatype Stats = Stats(total: nat, open: nat, inProgress: nat, resolved: nat, closed: nat)

  function HasStatus(status: string): Issue -> bool {
    (x: Issue) => x.status == status
  }

  /** `issues.filter(i => i.status === status).length`. */
  function CountStatus(issues: seq<Issue>, status: string): (n: nat)
    ensures n <= |issues|
    ensures n == 0 <==> forall x :: x in issues ==> x.status != status
  {
    |Filter(issues, HasStatus(status))|
  }

  /** The statuses of the listed issues, in order. */
  function Statuses(issues: seq<Issue>): seq<string> {
    seq(|issues|, i requires 0 <= i < |issues| => issues[i].status)
  }

  lemma CountStep(issues: seq<Issue>, status: string)
    requires issues != []
    ensures CountStatus(issues, status)
         == (if issues[0].status == status then 1 else 0) + CountStatus(issues[1..], status)
  {
  }

  /** The statuses of a non-empty list: its head's status, then the rest's. */
  lemma StatusesSplit(issues: seq<Issue>)
    requires issues != []
    ensures Statuses(issues) == [issues[0].status] + Statuses(issues[1..])
  {
    assert forall i :: 0 <= i < |issues| - 1 ==> Statuses(issues)[i + 1] == Statuses(issues[1..])[i];
  }

  /** A counter is the number of times its status string occurs among the statuses. */
  lemma {:induction false} CountIsOccurrences(issues: seq<Issue>, status: string)
    ensures CountStatus(issues, status) == multiset(Statuses(issues))[status]
  {
    if issues != [] {
      CountStep(issues, status);
      CountIsOccurrences(issues[1..], status);
      StatusesSplit(issues);
    }
  }

  /** `getStatusStats`. */
  function StatusStats(issues: seq<Issue>): (st: Stats)
    ensures st.total == |issues|
    ensures st.open == multiset(Statuses(issues))[StatusOpen]
    ensures st.inProgress == multiset(Statuses(issues))[StatusInProgress]
    ensures st.resolved == multiset(Statuses(issues))[StatusResolved]
    ensures st.closed == multiset(Statuses(issues))[StatusClosed]
    ensures st.open <= st.total && st.inProgress <= st.total && st.resolved <= st.total && st.closed <= st.total
  {
    CountIsOccurrences(issues, StatusOpen);
    CountIsOccurrences(issues, StatusInProgress);
    CountIsOccurrences(issues, StatusResolved);
    CountIsOccurrences(issues, StatusClosed);
    Stats(|issues|, CountStatus(issues, StatusOpen), CountStatus(issues, StatusInProgress),
          CountStatus(issues, StatusResolved), CountStatus(issues, StatusClosed))
  }

  predicate KnownStatus(s: string) {
    s == StatusOpen || s == StatusInProgress || s == StatusResolved || s == StatusClosed
  }

  /** How many issues carry one of the four known statuses. */
  function KnownCount(issues: seq<Issue>): nat {
    CountStatus(issues, StatusOpen) + CountStatus(issues, StatusInProgress)
      + CountStatus(issues, StatusResolved) + CountStatus(issues, StatusClosed)
  }

  lemma {:induction false} KnownCountBound(issues: seq<Issue>)
    ensures KnownCount(issues) <= |issues|
    ensures KnownCount(issues) == |issues| <==> forall x :: x in issues ==> KnownStatus(x.status)
  {
    if issues != [] {
      KnownCountBound(issues[1..]);
      CountStep(issues, StatusOpen);
      CountStep(issues, StatusInProgress);
      CountStep(issues, StatusResolved);
      CountStep(issues, StatusClosed);
      assert KnownCount(issues) == (if KnownStatus(issues[0].status) then 1 else 0) + KnownCount(issues[1..]);
      assert forall x :: x in issues <==> x == issues[0] || x in issues[1..];
    }
  }

  /** The four counters never exceed the total, and add up to it exactly when every
      issue carries one of the four known statuses. */
  lemma CountersAddUpToTotal(issues: seq<Issue>)
    ensures var st := StatusStats(issues);
      st.open + st.inProgress + st.resolved + st.closed <= st.total
    ensures var st := StatusStats(issues);
      (st.open + st.inProgress + st.resolved + st.closed == st.total)
        <==> (forall x :: x in issues ==> KnownStatus(x.status))
  {
    KnownCountBound(issues);
    assert StatusStats(issues).open + StatusStats(issues).inProgress
      + StatusStats(issues).resolved + StatusStats(issues).closed == KnownCount(issues);
  }

  /** Listing without a filter returns every stored issue. */
  lemma ListAllIsPermutation(store: Store)
    ensures multiset(GetIssues(store, None).response.body.issues) == multiset(store)
  {
    var all := GetIssues(store, None).response.body.issues;
    forall x
      ensures multiset(all)[x] == multiset(store)[x]
    {
      assert StatusSelects(None, x);
    }
  }

  /** Listing by a status returns the issues the dashboard counts for it. */
  lemma ListByStatusIsCounted(store: Store, status: string)
    requires status != ""
    ensures multiset(GetIssues(store, Some(status)).response.body.issues)
         == multiset(Filter(store, HasStatus(status)))
  {
    var some := GetIssues(store, Some(status)).response.body.issues;
    var f := Filter(store, HasStatus(status));
    forall x
      ensures multiset(some)[x] == multiset(f)[x]
    {
      assert StatusSelects(Some(status), x) == HasStatus(status)(x);
    }
  }

  /** The counter of a status equals the number of issues the server lists when
      the dashboard filters by that status. */
  lemma CounterMatchesFilteredFetch(store: Store, status: string)
    requires status != ""
    ensures CountStatus(GetIssues(store, None).response.body.issues, status)
         == |GetIssues(store, Some(status)).response.body.issues|
  {
    var all := GetIssues(store, None).response.body.issues;
    var some := GetIssues(store, Some(status)).response.body.issues;
    ListAllIsPermutation(store);
    FilterRespectsMultiset(all, store, HasStatus(status));
    ListByStatusIsCounted(store, status);
    var f := Filter(store, HasStatus(status));
    assert |some| == |multiset(some)| == |multiset(f)| == |f|;
  }

  /** A store with unique identifiers holds each issue at most once. */
  lemma {:induction false} UniqueIdsNoDuplicates(s: seq<Issue>)
    requires UniqueIds(s)
    ensures forall x :: multiset(s)[x] <= 1
  {
    if s != [] {
      UniqueIdsNoDuplicates(s[1..]);
      assert s == [s[0]] + s[1..];
      assert s[0] !in s[1..];
    }
  }

  /** Two duplicate-free sequences with the same members hold the same multiset. */
  lemma SameMembersSameMultiset(a: seq<Issue>, b: seq<Issue>)
    requires forall x :: multiset(a)[x] <= 1 && multiset(b)[x] <= 1
    requires forall x :: x in a <==> x in b
    ensures multiset(a) == multiset(b)
  {
    forall x
      ensures multiset(a)[x] == multiset(b)[x]
    {
      assert x in a <==> x in multiset(a);
      assert x in b <==> x in multiset(b);
    }
  }

  /** A listing of a store with unique identifiers holds each issue at most once. */
  lemma ListingIsDuplicateFree(store: Store, query: Option<string>)
    requires UniqueIds(store)
    ensures forall x :: multiset(GetIssues(store, query).response.body.issues)[x] <= 1
  {
    UniqueIdsNoDuplicates(store);
  }

  /** The list kept after a delete and a fresh listing hold the same issues. */
  lemma SameIssuesAfterDelete(store: Store, query: Option<string>, user: User, id: Id)
    requires UniqueIds(store)
    requires DeleteIssue(store, user, id).response.code == 200
    ensures forall x :: x in RemoveIssue(GetIssues(store, query).response.body.issues, id)
                   <==> x in GetIssues(DeleteIssue(store, user, id).store, query).response.body.issues
  {
    DeleteRemovesExactlyThatIssue(store, user, id);
  }

  /** Neither list holds an issue twice. */
  lemma ListsAfterDeleteAreDuplicateFree(store: Store, query: Option<string>, user: User, id: Id)
    requires UniqueIds(store)
    ensures forall x :: multiset(RemoveIssue(GetIssues(store, query).response.body.issues, id))[x] <= 1
    ensures forall x :: multiset(GetIssues(DeleteIssue(store, user, id).store, query).response.body.issues)[x] <= 1
  {
    ListingIsDuplicateFree(store, query);
    DeleteKeepsIdsUnique(store, user, id);
    ListingIsDuplicateFree(DeleteIssue(store, user, id).store, query);
  }

  /** The list the dashboard keeps after a successful delete is a valid answer
      to a fresh fetch: the same issues, still newest first. Only the order of
      issues created at the same instant may differ. */
  lemma DeleteKeepsListConsistent(store: Store, query: Option<string>, user: User, id: Id)
    requires UniqueIds(store)
    requires DeleteIssue(store, user, id).response.code == 200
    ensures var after := RemoveIssue(GetIssues(store, query).response.body.issues, id);
      && NewestFirst(after)
      && multiset(after) == multiset(GetIssues(DeleteIssue(store, user, id).store, query).response.body.issues)
  {
    var list := GetIssues(store, query).response.body.issues;
    FilterKeepsNewestFirst(list, (x: Issue) => x.id != id);
    SameIssuesAfterDelete(store, query, user, id);
    ListsAfterDeleteAreDuplicateFree(store, query, user, id);
    SameMembersSameMultiset(RemoveIssue(list, id),
                            GetIssues(DeleteIssue(store, user, id).store, query).response.body.issues);
  }

  /** The delete button is shown on every card to an administrator, and the server
      accepts every such delete of a stored issue from the same account. */
  lemma AdminDeleteSucceeds(store: Store, viewer: User, caller: User, filter: string, k: nat)
    requires UniqueIds(store) && k < |store|
    requires SameAccount(viewer, caller)
    requires OnLoad(viewer, filter).Fetch?
    ensures DeleteIssue(store, caller, store[k].id).response.code == 200
  {
    FindIndexOfMember(store, k);
  }
}

=== FILE: client.dfy ===
/** Pure helpers both dashboards share: the fetch URL, how the server reads
    it back, the list after a delete, and the status CSS class. */
module Client {
  import opened Results
  import opened Strings
  import opened Sequences
  import opened IssueModel

  const IssuesEndpoint: string := "http://localhost:5000/api/issues"
  const StatusParam: string := "?status="

  /** The values of the status filter drop-down. */
  const FilterOptions: seq<string> := ["", StatusOpen, StatusInProgress, StatusResolved, StatusClosed]

  lemma EndpointHasNoQuery(i: int)
    ensures !OccursAt(IssuesEndpoint, StatusParam, i)
  {
    assert forall j :: 0 <= j < |IssuesEndpoint| ==> IssuesEndpoint[j] != '?';
    OccurrenceHasChar(IssuesEndpoint, StatusParam, i, 0);
  }

  /** `fetchIssues`: the status query is appended exactly when a filter is chosen. */
  function IssuesUrl(filter: string): (url: string)
    ensures StartsWith(url, IssuesEndpoint)
    ensures (exists i :: OccursAt(url, StatusParam, i)) <==> filter != ""
    ensures filter == "" ==> url == IssuesEndpoint
  {
    if filter != "" then
      var url := IssuesEndpoint + StatusParam + filter;
      assert url[|IssuesEndpoint|..|IssuesEndpoint| + |StatusParam|] == StatusParam;
      assert OccursAt(url, StatusParam, |IssuesEndpoint|);
      url
    else
      assert forall i :: !OccursAt(IssuesEndpoint, StatusParam, i) by {
        forall i
          ensures !OccursAt(IssuesEndpoint, StatusParam, i)
        {
          EndpointHasNoQuery(i);
        }
      }
      IssuesEndpoint
  }

  /** Characters that would end or alter a query value. */
  predicate QuerySafe(value: string) {
    forall i :: 0 <= i < |value| ==> value[i] !in {'&', '#', '+', '%'}
  }

  /** The query value: everything up to the next '&' or '#'. */
  function QueryValue(rest: string): (v: string)
    ensures |v| <= |rest| && v == rest[..|v|]
    ensures forall i :: 0 <= i < |v| ==> v[i] != '&' && v[i] != '#'
    ensures |v| == |rest| || rest[|v|] == '&' || rest[|v|] == '#'
  {
    if rest == [] || rest[0] == '&' || rest[0] == '#' then []
    else [rest[0]] + QueryValue(rest[1..])
  }

  /** `req.query.status` as the server reads it from a URL of this client.
      Percent-encoding is not modelled: on query-safe values the browser's
      encoding and the server's decoding cancel out. */
  function RequestedStatus(url: string): (status: Option<string>)
    ensures status.Some? <==> StartsWith(url, IssuesEndpoint + StatusParam)
    ensures status.Some? ==> forall i :: 0 <= i < |status.value| ==> status.value[i] != '&' && status.value[i] != '#'
  {
    var prefix := IssuesEndpoint + StatusParam;
    if StartsWith(url, prefix) then Some(QueryValue(url[|prefix|..])) else None
  }

  lemma QueryValueOfSafe(value: string)
    requires QuerySafe(value)
    ensures QueryValue(value) == value
  {
    if value != [] {
      QueryValueOfSafe(value[1..]);
    }
  }

  /** Round trip: the server reads back exactly the filter the client chose. */
  lemma FilterReachesServer(filter: string)
    requires QuerySafe(filter)
    ensures RequestedStatus(IssuesUrl(filter)) == if filter == "" then None else Some(filter)
  {
    var prefix := IssuesEndpoint + StatusParam;
    if filter != "" {
      var url := IssuesUrl(filter);
      assert url == prefix + filter;
      assert url[..|prefix|] == prefix;
      assert url[|prefix|..] == filter;
      QueryValueOfSafe(filter);
    }
  }

  /** Every value of the drop-down survives the round trip. */
  lemma FilterOptionsAreSafe()
    ensures forall f :: f in FilterOptions ==> QuerySafe(f)
  {
  }

  /** The user a dashboard keeps (the login response, compared by its `id`) and the
      user the server's middleware resolves from the token (compared by the string
      form of its `_id`) denote the same account with the same role. */
  predicate SameAccount(viewer: User, caller: User) {
    viewer.id == caller.id && viewer.role == caller.role
  }

  /** `issues.filter(issue => issue._id !== issueId)` after a delete. */
  function RemoveIssue(issues: seq<Issue>, id: Id): (r: seq<Issue>)
    ensures forall x :: x in r ==> x.id != id
    ensures forall x :: x in issues && x.id != id ==> x in r
    ensures forall x :: multiset(r)[x] == if x.id != id then multiset(issues)[x] else 0
    ensures IsSubsequence(r, issues)
  {
    FilterIsSubsequence(issues, (x: Issue) => x.id != id);
    Filter(issues, (x: Issue) => x.id != id)
  }

  /** `status.replace(' ', '-')`: the CSS class of a status. */
  function StatusClass(status: string): (c: string)
    ensures |c| == |status|
    ensures forall j :: 0 <= j < |status| && status[j] != ' ' ==> c[j] == status[j]
    ensures forall j :: 0 <= j < |c| && c[j] == ' ' ==> status[j] == ' '
    ensures (exists j :: 0 <= j < |status| && status[j] == ' ') <==> (exists j :: 0 <= j < |c| && c[j] == '-' && status[j] == ' ')
  {
    ReplaceFirst(status, ' ', '-')
  }

  /** A status without spaces is its own class. */
  lemma SpaceFreeStatusClass(status: string)
    requires forall j :: 0 <= j < |status| ==> status[j] != ' '
    ensures StatusClass(status) == status
  {
  }

  /** A space-free first word, one space, then anything: that space becomes a
      hyphen and the rest, spaces included, is left as it is ("a b c" gives "a-b c"). */
  lemma TwoWordStatusClass(first: string, second: string)
    requires forall j :: 0 <= j < |first| ==> first[j] != ' '
    ensures StatusClass(first + " " + second) == first + "-" + second
  {
    var s := first + " " + second;
    assert IndexOf(s, ' ') == |first| by {
      assert s[|first|] == ' ';
      assert forall j :: 0 <= j < |first| ==> s[j] == first[j];
    }
  }

  /** "in progress" becomes the class "in-progress". */
  lemma InProgressClass()
    ensures StatusClass(StatusInProgress) == "in-progress"
  {
  }

  /** Only the first space is replaced: the class is free of spaces exactly when
      the status holds at most one space. */
  lemma StatusClassSpaceFree(status: string)
    ensures (forall j :: 0 <= j < |StatusClass(status)| ==> StatusClass(status)[j] != ' ')
        <==> (forall i, j :: 0 <= i < j < |status| ==> !(status[i] == ' ' && status[j] == ' '))
  {
    var r := StatusClass(status);
    var f := IndexOf(status, ' ');
    if exists i, j :: 0 <= i < j < |status| && status[i] == ' ' && status[j] == ' ' {
      var i, j :| 0 <= i < j < |status| && status[i] == ' ' && status[j] == ' ';
      assert f <= i;
      assert r[j] == ' ';
    }
    if exists j :: 0 <= j < |r| && r[j] == ' ' {
      var j :| 0 <= j < |r| && r[j] == ' ';
      assert status[j] == ' ' && j != f;
      assert f < j && status[f] == ' ';
    }
  }
}

=== FILE: dashboard.dfy ===
/** The citizen dashboard: which controls it shows, compared with what the
    server allows. */
module Dashboard {
  import opened Results
  import opened Strings
  import opened IssueModel
  import opened IssueRoutes
  import opened Client
  import AdminDashboard
  import IssueRouteProperties

  /** The delete control appears on a card only for the issue's owner. */
  predicate ShowsDelete(user: User, issue: Issue) {
    issue.userId == user.id
  }

  /** The admin badge and the "Admin Panel" button appear for administrators. */
  predicate ShowsAdminControls(user: User) {
    user.role == AdminRole
  }

  /** `fetchIssues`: this dashboard has no guard and always fetches. */
  function FetchUrl(filter: string): (url: string)
    ensures StartsWith(url, IssuesEndpoint)
    ensures (exists i :: OccursAt(url, StatusParam, i)) <==> filter != ""
    ensures filter == "" ==> url == IssuesEndpoint
    ensures QuerySafe(filter) ==> RequestedStatus(url) == if filter == "" then None else Some(filter)
  {
    if QuerySafe(filter) then
      FilterReachesServer(filter);
      IssuesUrl(filter)
    else IssuesUrl(filter)
  }

  /** Every delete the dashboard offers to `viewer` is one the server accepts from
      `caller`, provided the two are the same account. */
  lemma ShownDeleteIsAllowed(viewer: User, caller: User, issue: Issue)
    requires SameAccount(viewer, caller)
    ensures ShowsDelete(viewer, issue) ==> MayDelete(caller, issue)
  {
  }

  /** Without that agreement the control can be shown for a delete the server refuses. */
  lemma MismatchedAccountIsForbidden(viewer: User, caller: User, issue: Issue)
    requires ShowsDelete(viewer, issue)
    requires caller.id != viewer.id && caller.role != AdminRole
    ensures !MayDelete(caller, issue)
  {
  }

  /** The server allows more than the dashboard offers: exactly an administrator
      looking at someone else's issue is allowed to delete it but sees no control. */
  lemma HiddenButAllowed(viewer: User, caller: User, issue: Issue)
    requires SameAccount(viewer, caller)
    ensures MayDelete(caller, issue) && !ShowsDelete(viewer, issue)
        <==> caller.role == AdminRole && issue.userId != caller.id
  {
  }

  /** For a user who is not an administrator the dashboard and the server agree. */
  lemma CitizenViewMatchesServer(viewer: User, caller: User, issue: Issue)
    requires SameAccount(viewer, caller) && caller.role != AdminRole
    ensures ShowsDelete(viewer, issue) <==> MayDelete(caller, issue)
  {
  }

  /** A concrete case of the gap: an administrator sees no delete control on a
      citizen's issue, yet the server would delete it. */
  lemma AdminMissesDeleteOnOthersIssue(store: Store, k: nat, viewer: User, admin: User)
    requires UniqueIds(store) && k < |store|
    requires SameAccount(viewer, admin)
    requires admin.role == AdminRole && store[k].userId != admin.id
    ensures !ShowsDelete(viewer, store[k])
    ensures DeleteIssue(store, admin, store[k].id).response.code == 200
  {
    FindIndexOfMember(store, k);
  }

  /** Pressing a shown delete control on a stored issue succeeds on the server,
      and the issue is gone from the store. */
  lemma ShownDeleteSucceeds(store: Store, viewer: User, caller: User, k: nat)
    requires UniqueIds(store) && k < |store|
    requires SameAccount(viewer, caller)
    requires ShowsDelete(viewer, store[k])
    ensures DeleteIssue(store, caller, store[k].id).response.code == 200
    ensures store[k] !in DeleteIssue(store, caller, store[k].id).store
  {
    FindIndexOfMember(store, k);
    IssueRouteProperties.DeleteRemovesExactlyThatIssue(store, caller, store[k].id);
  }

  /** After pressing a shown delete control, the list the dashboard keeps is newest
      first and holds the same issues as a fresh fetch with the same filter. */
  lemma ShownDeleteKeepsListConsistent(store: Store, viewer: User, caller: User, k: nat, query: Option<string>)
    requires UniqueIds(store) && k < |store|
    requires SameAccount(viewer, caller)
    requires ShowsDelete(viewer, store[k])
    ensures var after := RemoveIssue(GetIssues(store, query).response.body.issues, store[k].id);
      && NewestFirst(after)
      && multiset(after) == multiset(GetIssues(DeleteIssue(store, caller, store[k].id).store, query).response.body.issues)
  {
    ShownDeleteSucceeds(store, viewer, caller, k);
    AdminDashboard.DeleteKeepsListConsistent(store, query, caller, store[k].id);
  }

  /** The admin controls appear exactly for the users the admin dashboard lets in. */
  lemma AdminControlsMatchAdminView(user: User, filter: string)
    ensures ShowsAdminControls(user) <==> AdminDashboard.OnLoad(user, filter).Fetch?
  {
  }
}

=== FILE: issue_model.dfy ===
/** The Issue record, the authenticated user, and the document store as a
    sequence of issues in insertion order. */
module IssueModel {
  import opened Results
  import opened Sequences

  /** Document identifiers, compared by their string form. */
  type Id = string

  const AdminRole: string := "admin"

  /** The four status values the clients offer. */
  const StatusOpen: string := "open"
  const StatusInProgress: string := "in progress"
  const StatusResolved: string := "resolved"
  const StatusClosed: string := "closed"

  /** The user the authentication middleware attaches to a request. */
  datatype User = User(id: Id, name: string, role: string)

  /** A stored issue. The four form fields are absent when the form did not send them. */
  datatype Issue = Issue(
    id: Id,
    title: Option<string>,
    description: Option<string>,
    category: Option<string>,
    location: Option<string>,
    image: string,
    status: string,
    userId: Id,
    userName: string,
    createdAt: nat,
    updatedAt: nat)

  type Store = seq<Issue>

  /** The store assigns every document its own identifier. */
  predicate UniqueIds(s: seq<Issue>) {
    forall i, j :: 0 <= i < j < |s| ==> s[i].id != s[j].id
  }

  /** `findById`: the position of the first issue with identifier `id`. */
  function FindIndex(s: seq<Issue>, id: Id): (r: Option<nat>)
    ensures r.Some? ==> r.value < |s| && s[r.value].id == id
    ensures r.Some? ==> forall j :: 0 <= j < r.value ==> s[j].id != id
    ensures r.None? <==> forall x :: x in s ==> x.id != id
  {
    if s == [] then None
    else if s[0].id == id then Some(0)
    else
      assert s == [s[0]] + s[1..];
      match FindIndex(s[1..], id)
      case None => None
      case Some(k) => Some(k + 1)
  }

  /** With unique identifiers, an issue of the store is the one found under its identifier. */
  lemma FindIndexOfMember(s: seq<Issue>, k: nat)
    requires UniqueIds(s) && k < |s|
    ensures FindIndex(s, s[k].id) == Some(k)
  {
  }

  /** Removing the issue at `k` from a store with unique identifiers leaves
      exactly the issues with a different identifier. */
  lemma RemoveAtMembers(s: seq<Issue>, k: nat)
    requires UniqueIds(s) && k < |s|
    ensures forall x :: x in s[..k] + s[k + 1..] <==> x in s && x.id != s[k].id
  {
    var r := s[..k] + s[k + 1..];
    forall x | x in r
      ensures x in s && x.id != s[k].id
    {
      var i :| 0 <= i < |r| && r[i] == x;
      if i < k {
        assert x == s[i];
      } else {
        assert x == s[i + 1];
      }
    }
    forall x | x in s && x.id != s[k].id
      ensures x in r
    {
      var i :| 0 <= i < |s| && s[i] == x;
      if i < k {
        assert r[i] == x;
      } else {
        assert r[i - 1] == x;
      }
    }
  }

  /** Ordered by `createdAt`, newest first. */
  predicate NewestFirst(s: seq<Issue>) {
    forall i, j :: 0 <= i < j < |s| ==> s[i].createdAt >= s[j].createdAt
  }

  /** No issue of a newest-first list is newer than its head. */
  lemma HeadIsNewest(s: seq<Issue>)
    requires NewestFirst(s) && s != []
    ensures forall y :: y in s ==> y.createdAt <= s[0].createdAt
  {
    forall y | y in s
      ensures y.createdAt <= s[0].createdAt
    {
      var k :| 0 <= k < |s| && s[k] == y;
    }
  }

  /** Puts `x` before the first issue that is not newer than it. */
  function Insert(x: Issue, s: seq<Issue>): (r: seq<Issue>)
    requires NewestFirst(s)
    ensures NewestFirst(r)
    ensures multiset(r) == multiset(s) + multiset{x}
    ensures r[0] == x || (s != [] && r[0] == s[0])
  {
    if s == [] || x.createdAt >= s[0].createdAt then [x] + s
    else
      assert s == [s[0]] + s[1..];
      [s[0]] + Insert(x, s[1..])
  }

  /** `sort({ createdAt: -1 })`: the same issues, newest first. The order of
      issues created at the same instant is not promised. */
  function SortNewestFirst(s: seq<Issue>): (r: seq<Issue>)
    ensures NewestFirst(r)
    ensures multiset(r) == multiset(s)
  {
    if s == [] then []
    else
      assert s == [s[0]] + s[1..];
      Insert(s[0], SortNewestFirst(s[1..]))
  }

  /** Any filter of a newest-first list is newest first. */
  lemma {:induction false} FilterKeepsNewestFirst(s: seq<Issue>, p: Issue -> bool)
    requires NewestFirst(s)
    ensures NewestFirst(Filter(s, p))
  {
    if s != [] {
      FilterKeepsNewestFirst(s[1..], p);
      HeadIsNewest(s);
      var rest := Filter(s[1..], p);
      forall j | 0 <= j < |rest|
        ensures rest[j].createdAt <= s[0].createdAt
      {
        assert rest[j] in s[1..];
      }
    }
  }
}

=== FILE: issue_route_properties.dfy ===
/** Properties that relate several calls of the issue handlers. */
module IssueRouteProperties {
  import opened Results
  import opened Sequences
  import opened Upload
  import opened IssueModel
  import opened IssueRoutes

  /** The create handler reads only title, description, category and location
      from the form: two forms that agree on those four give the same outcome,
      whatever else (a status, an owner, an image path) they carry. */
  lemma CreateReadsOnlyFourFields(store: Store, user: User, form1: Form, form2: Form,
                                  file: Option<UploadedFile>, uploadTime: nat, newId: Id,
                                  defaults: SchemaDefaults, schemaAccepts: Issue -> bool)
    requires forall k :: k in ["title", "description", "category", "location"] ==> Field(form1, k) == Field(form2, k)
    ensures CreateIssue(store, user, form1, file, uploadTime, newId, defaults, schemaAccepts)
         == CreateIssue(store, user, form2, file, uploadTime, newId, defaults, schemaAccepts)
  {
    assert Field(form1, "title") == Field(form2, "title");
    assert Field(form1, "description") == Field(form2, "description");
    assert Field(form1, "category") == Field(form2, "category");
    assert Field(form1, "location") == Field(form2, "location");
  }

  /** In particular a client cannot choose the status or the owner of the issue it reports. */
  lemma FormCannotSetStatusOrOwner(store: Store, user: User, form: Form, status: string, owner: Id,
                                   file: Option<UploadedFile>, uploadTime: nat, newId: Id,
                                   defaults: SchemaDefaults, schemaAccepts: Issue -> bool)
    ensures CreateIssue(store, user, form["status" := status]["userId" := owner], file, uploadTime, newId, defaults, schemaAccepts)
         == CreateIssue(store, user, form, file, uploadTime, newId, defaults, schemaAccepts)
  {
    CreateReadsOnlyFourFields(store, user, form["status" := status]["userId" := owner], form,
                              file, uploadTime, newId, defaults, schemaAccepts);
  }

  /** Creating keeps identifiers unique. */
  lemma CreateKeepsIdsUnique(store: Store, user: User, form: Form, file: Option<UploadedFile>, uploadTime: nat,
                             newId: Id, defaults: SchemaDefaults, schemaAccepts: Issue -> bool)
    requires UniqueIds(store)
    ensures UniqueIds(CreateIssue(store, user, form, file, uploadTime, newId, defaults, schemaAccepts).store)
  {
    var r := CreateIssue(store, user, form, file, uploadTime, newId, defaults, schemaAccepts);
    if r.response.code == 201 {
      var s := r.store;
      forall i, j | 0 <= i < j < |s|
        ensures s[i].id != s[j].id
      {
        if j == |store| {
          assert s[i] in store;
        }
      }
    }
  }

  /** Updating a status keeps identifiers unique. */
  lemma UpdateKeepsIdsUnique(store: Store, id: Id, status: string, now: nat)
    requires UniqueIds(store)
    ensures UniqueIds(UpdateStatus(store, id, status, now).store)
  {
  }

  /** Deleting keeps identifiers unique. */
  lemma DeleteKeepsIdsUnique(store: Store, user: User, id: Id)
    requires UniqueIds(store)
    ensures UniqueIds(DeleteIssue(store, user, id).store)
  {
    var r := DeleteIssue(store, user, id);
    if r.store != store {
      var k := FindIndex(store, id).value;
      var s := r.store;
      assert s == store[..k] + store[k + 1..];
      forall i, j | 0 <= i < j < |s|
        ensures s[i].id != s[j].id
      {
        var i' := if i < k then i else i + 1;
        var j' := if j < k then j else j + 1;
        assert s[i] == store[i'] && s[j] == store[j'];
      }
    }
  }

  /** A successful delete leaves every other issue and no issue with that identifier. */
  lemma DeleteRemovesExactlyThatIssue(store: Store, user: User, id: Id)
    requires UniqueIds(store)
    requires DeleteIssue(store, user, id).response.code == 200
    ensures forall x :: x in DeleteIssue(store, user, id).store <==> x in store && x.id != id
  {
    var k := FindIndex(store, id).value;
    assert DeleteIssue(store, user, id).store == store[..k] + store[k + 1..];
    RemoveAtMembers(store, k);
  }

  /** After a successful delete no listing shows the issue again. */
  lemma DeletedIssueIsNotListed(store: Store, user: User, id: Id, query: Option<string>, viewer: User)
    requires UniqueIds(store)
    requires DeleteIssue(store, user, id).response.code == 200
    ensures forall x :: x in GetIssues(DeleteIssue(store, user, id).store, query).response.body.issues ==> x.id != id
    ensures forall x :: x in GetMyIssues(DeleteIssue(store, user, id).store, viewer).response.body.issues ==> x.id != id
  {
    DeleteRemovesExactlyThatIssue(store, user, id);
  }

  /** The status update has no transition guard: from any current status, any
      new status is accepted, and only status and update time change. */
  lemma AnyStatusChangeIsAccepted(store: Store, id: Id, status: string, now: nat)
    requires FindIndex(store, id).Some?
    ensures var r := UpdateStatus(store, id, status, now);
      && r.response.code == 200
      && var before, after := store[FindIndex(store, id).value], r.response.body.issue;
      && after.status == status && after.updatedAt == now
      && after.(status := before.status, updatedAt := before.updatedAt) == before
  {
  }

  /** A caller who neither owns the issue nor is an administrator gets 403 and
      the store is left as it was. */
  lemma ForbiddenDeleteChangesNothing(store: Store, user: User, k: nat)
    requires UniqueIds(store) && k < |store|
    requires store[k].userId != user.id && user.role != AdminRole
    ensures DeleteIssue(store, user, store[k].id) == Outcome(store, Forbidden)
  {
    FindIndexOfMember(store, k);
  }

  /** An empty `status` query is the same as none. */
  lemma EmptyQueryListsAll(store: Store)
    ensures GetIssues(store, Some("")) == GetIssues(store, None)
  {
    FilterCongruence(store, (x: Issue) => StatusSelects(Some(""), x), (x: Issue) => StatusSelects(None, x));
  }

  /** Round trip: an issue just reported is among the reporter's own issues,
      with the title, description, category and location of the form. */
  lemma CreatedIssueIsListedAsMine(store: Store, user: User, form: Form, file: Option<UploadedFile>,
                                   uploadTime: nat, newId: Id, defaults: SchemaDefaults, schemaAccepts: Issue -> bool)
    requires CreateIssue(store, user, form, file, uploadTime, newId, defaults, schemaAccepts).response.code == 201
    ensures var r := CreateIssue(store, user, form, file, uploadTime, newId, defaults, schemaAccepts);
      exists x :: x in GetMyIssues(r.store, user).response.body.issues
        && x.id == newId
        && x.title == Field(form, "title") && x.description == Field(form, "description")
        && x.category == Field(form, "category") && x.location == Field(form, "location")
  {
    var r := CreateIssue(store, user, form, file, uploadTime, newId, defaults, schemaAccepts);
    var x := r.response.body.issue;
    assert x in r.store;
  }
}

=== FILE: issue_routes.dfy ===
/** The five handlers of the issues router as functions from a store and a
    request to a new store and a response. The authentication middleware is
    represented by the `User` it attaches; the clock is a parameter. */
module IssueRoutes {
  import opened Results
  import opened Sequences
  import opened NodePath
  import opened Upload
  import opened IssueModel

  /** The JSON bodies the handlers send. */
  datatype Body =
    | IssueMessage(message: string, issue: Issue)
    | IssueList(issues: seq<Issue>)
    | Message(message: string)
    | UploadFailed(error: UploadError)

  datatype Response = Response(code: nat, body: Body)

  /** The store after a request, and the response sent for it. */
  datatype Outcome = Outcome(store: Store, response: Response)

  /** The catch-all answer when saving fails. */
  const ServerError: Response := Response(500, Message("Server error"))
  const NotFound: Response := Response(404, Message("Issue not found"))
  const Forbidden: Response := Response(403, Message("Not authorized to delete this issue"))

  /** The text fields of a multipart form. */
  type Form = map<string, string>

  function Field(form: Form, key: string): Option<string> {
    if key in form then Some(form[key]) else None
  }

  /** The values the Issue schema supplies for fields the handler leaves unset.
      The schema itself is not part of this model, so these are parameters. */
  datatype SchemaDefaults = SchemaDefaults(status: string, createdAt: nat, updatedAt: nat)

  /** The document the create handler builds: four fields from the form, the image
      path from the upload step, the owner from the authenticated user. */
  function BuildIssue(id: Id, form: Form, image: string, user: User, defaults: SchemaDefaults): Issue {
    Issue(id, Field(form, "title"), Field(form, "description"), Field(form, "category"),
          Field(form, "location"), image, defaults.status, user.id, user.name,
          defaults.createdAt, defaults.updatedAt)
  }

  /** POST /: the upload step runs first, and its refusal reaches the default
      error handler (500) without running the handler. Saving fails (500) when
      the store already holds `newId` or the schema refuses the document.
      Otherwise the document is appended and returned with 201. */
  function CreateIssue(store: Store, user: User, form: Form, file: Option<UploadedFile>, uploadTime: nat,
                       newId: Id, defaults: SchemaDefaults, schemaAccepts: Issue -> bool): (r: Outcome)
    ensures r.response.code == 201 || r.response.code == 500
    ensures r.response.code != 201 ==> r.store == store
    ensures AcceptUpload(file, uploadTime).Err? ==>
      r.response == Response(500, UploadFailed(AcceptUpload(file, uploadTime).error))
    ensures FindIndex(store, newId).Some? ==> r.response.code == 500
    ensures r.response.code == 201 <==>
      && AcceptUpload(file, uploadTime).Ok?
      && FindIndex(store, newId).None?
      && schemaAccepts(BuildIssue(newId, form, AcceptUpload(file, uploadTime).value, user, defaults))
    ensures AcceptUpload(file, uploadTime).Ok? && r.response.code != 201 ==> r.response == ServerError
    ensures r.response.code == 201 ==>
      && r.response.body.IssueMessage?
      && r.response.body.message == "Issue reported successfully"
      && schemaAccepts(r.response.body.issue)
      && r.store == store + [r.response.body.issue]
    ensures r.response.code == 201 ==>
      var issue := r.response.body.issue;
      && issue.id == newId
      && issue.title == Field(form, "title")
      && issue.description == Field(form, "description")
      && issue.category == Field(form, "category")
      && issue.location == Field(form, "location")
      && issue.userId == user.id
      && issue.userName == user.name
      && issue.status == defaults.status
      && issue.createdAt == defaults.createdAt
      && issue.updatedAt == defaults.updatedAt
      && issue.image == AcceptUpload(file, uploadTime).value
      && (file.None? <==> issue.image == "")
      && (file.Some? ==> ParseImagePath(issue.image) == Some((uploadTime, ExtName(file.value.originalName))))
  {
    match AcceptUpload(file, uploadTime)
    case Err(e) => Outcome(store, Response(500, UploadFailed(e)))
    case Ok(image) =>
      var issue := BuildIssue(newId, form, image, user, defaults);
      if FindIndex(store, newId).Some? || !schemaAccepts(issue) then Outcome(store, ServerError)
      else Outcome(store + [issue], Response(201, IssueMessage("Issue reported successfully", issue)))
  }

  /** GET /: an absent or empty `status` query selects every issue. */
  predicate StatusSelects(query: Option<string>, x: Issue) {
    query.None? || query.value == "" || x.status == query.value
  }

  /** GET /: the selected issues, newest first. */
  function GetIssues(store: Store, query: Option<string>): (r: Outcome)
    ensures r.store == store && r.response.code == 200 && r.response.body.IssueList?
    ensures forall x :: x in r.response.body.issues <==> x in store && StatusSelects(query, x)
    ensures forall x :: multiset(r.response.body.issues)[x] == if StatusSelects(query, x) then multiset(store)[x] else 0
    ensures NewestFirst(r.response.body.issues)
  {
    var selected := Filter(store, (x: Issue) => StatusSelects(query, x));
    var sorted := SortNewestFirst(selected);
    assert forall x :: x in sorted <==> x in multiset(selected);
    Outcome(store, Response(200, IssueList(sorted)))
  }

  /** GET /my-issues: the caller's issues, newest first. */
  function GetMyIssues(store: Store, user: User): (r: Outcome)
    ensures r.store == store && r.response.code == 200 && r.response.body.IssueList?
    ensures forall x :: x in r.response.body.issues <==> x in store && x.userId == user.id
    ensures forall x :: multiset(r.response.body.issues)[x] == if x.userId == user.id then multiset(store)[x] else 0
    ensures NewestFirst(r.response.body.issues)
  {
    var mine := Filter(store, (x: Issue) => x.userId == user.id);
    var sorted := SortNewestFirst(mine);
    assert forall x :: x in sorted <==> x in multiset(mine);
    Outcome(store, Response(200, IssueList(sorted)))
  }

  /** PATCH /:id/status: 404 with the store unchanged when no issue has the
      identifier; otherwise the status is set to any given value and the update
      time refreshed, and the updated issue is returned. */
  function UpdateStatus(store: Store, id: Id, status: string, now: nat): (r: Outcome)
    ensures FindIndex(store, id).None? ==> r == Outcome(store, NotFound)
    ensures FindIndex(store, id).Some? ==>
      var k := FindIndex(store, id).value;
      && |r.store| == |store|
      && r.store[k] == store[k].(status := status, updatedAt := now)
      && (forall j :: 0 <= j < |store| && j != k ==> r.store[j] == store[j])
      && r.response == Response(200, IssueMessage("Issue status updated", r.store[k]))
  {
    match FindIndex(store, id)
    case None => Outcome(store, NotFound)
    case Some(k) =>
      var updated := store[k].(status := status, updatedAt := now);
      Outcome(store[k := updated], Response(200, IssueMessage("Issue status updated", updated)))
  }

  /** The delete rule of the server: the owner or an administrator. */
  predicate MayDelete(user: User, issue: Issue) {
    issue.userId == user.id || user.role == AdminRole
  }

  /** DELETE /:id: 404 when no issue has the identifier, 403 when the caller
      is neither its owner nor an administrator (both leave the store as it
      was); otherwise that one issue is removed and the rest keep their order. */
  function DeleteIssue(store: Store, user: User, id: Id): (r: Outcome)
    ensures FindIndex(store, id).None? ==> r == Outcome(store, NotFound)
    ensures FindIndex(store, id).Some? && !MayDelete(user, store[FindIndex(store, id).value]) ==>
      r == Outcome(store, Forbidden)
    ensures FindIndex(store, id).Some? && MayDelete(user, store[FindIndex(store, id).value]) ==>
      var target := store[FindIndex(store, id).value];
      && r.response == Response(200, Message("Issue deleted successfully"))
      && |r.store| == |store| - 1
      && multiset(r.store) == multiset(store) - multiset{target}
      && IsSubsequence(r.store, store)
  {
    match FindIndex(store, id)
    case None => Outcome(store, NotFound)
    case Some(k) =>
      if !MayDelete(user, store[k]) then Outcome(store, Forbidden)
      else
        assert store == store[..k] + [store[k]] + store[k + 1..];
        RemoveAtIsSubsequence(store, k);
        Outcome(store[..k] + store[k + 1..], Response(200, Message("Issue deleted successfully")))
  }
}

=== FILE: node_path.dfy ===
/** `path.extname` of Node.js, on POSIX ('/'-separated) paths. */
module NodePath {
  import opened Strings

  /** The path with its trailing separators dropped. */
  function TrimTrailingSlashes(p: string): (r: string)
    ensures |r| <= |p| && r == p[..|r|]
    ensures r == [] || r[|r| - 1] != '/'
    ensures forall i :: |r| <= i < |p| ==> p[i] == '/'
  {
    if p != [] && p[|p| - 1] == '/' then TrimTrailingSlashes(p[..|p| - 1]) else p
  }

  /** The last component of the path, after trailing separators are dropped. */
  function LastComponent(p: string): (b: string)
    ensures forall i :: 0 <= i < |b| ==> b[i] != '/'
  {
    var t := TrimTrailingSlashes(p);
    t[LastIndexOf(t, '/') + 1..]
  }

  /** The extension of the last component: from its last '.' to its end.
      It is empty when the component has no '.', when its only '.' is the
      first character (".png", "."), and for the component "..". */
  function ExtName(p: string): (r: string)
    ensures r == [] || r[0] == '.'
    ensures forall i :: 0 < i < |r| ==> r[i] != '.' && r[i] != '/'
  {
    var b := LastComponent(p);
    var d := LastIndexOf(b, '.');
    if d <= 0 || b == ".." then "" else b[d..]
  }

  /** A file name "stem.ext" with a non-empty stem has extension ".ext". */
  lemma ExtNameOfDottedName(stem: string, ext: string)
    requires stem != [] && stem + "." + ext != ".."
    requires forall i :: 0 <= i < |stem| ==> stem[i] != '/'
    requires forall i :: 0 <= i < |ext| ==> ext[i] != '/' && ext[i] != '.'
    ensures ExtName(stem + "." + ext) == "." + ext
  {
    var p := stem + "." + ext;
    assert p[|stem|] == '.';
    var t := TrimTrailingSlashes(p);
    assert p[|p| - 1] != '/';
    assert t == p;
    assert LastIndexOf(t, '/') == -1;
    assert LastComponent(p) == p;
    assert LastIndexOf(p, '.') == |stem|;
    assert p[|stem|..] == "." + ext;
  }

  /** Lower-casing does not touch separators or dots, so it commutes with `ExtName`. */
  lemma TrimCommutesWithLower(p: string)
    ensures TrimTrailingSlashes(Lower(p)) == Lower(TrimTrailingSlashes(p))
    decreases |p|
  {
    if p != [] && p[|p| - 1] == '/' {
      assert Lower(p)[..|p| - 1] == Lower(p[..|p| - 1]);
      TrimCommutesWithLower(p[..|p| - 1]);
    }
  }

  /** Lower-casing maps a non-letter only from itself. */
  lemma LowerCharPreservesNonLetter(x: char, c: char)
    requires !IsUpper(c) && !('a' <= c <= 'z')
    ensures LowerChar(x) == c <==> x == c
  {
  }

  lemma LastIndexOfCommutesWithLower(s: string, c: char)
    requires !IsUpper(c) && !('a' <= c <= 'z')
    ensures LastIndexOf(Lower(s), c) == LastIndexOf(s, c)
  {
    forall j | 0 <= j < |s|
      ensures Lower(s)[j] == c <==> s[j] == c
    {
      LowerCharPreservesNonLetter(s[j], c);
    }
    var k1, k2 := LastIndexOf(Lower(s), c), LastIndexOf(s, c);
    assert k1 >= 0 ==> s[k1] == c;
    assert k2 >= 0 ==> Lower(s)[k2] == c;
  }

  lemma LastComponentCommutesWithLower(p: string)
    ensures LastComponent(Lower(p)) == Lower(LastComponent(p))
  {
    var t := TrimTrailingSlashes(p);
    TrimCommutesWithLower(p);
    LastIndexOfCommutesWithLower(t, '/');
    LowerSlices(t, LastIndexOf(t, '/') + 1);
  }

  lemma LowerIsDotDot(b: string)
    ensures Lower(b) == ".." <==> b == ".."
  {
    LowerCharPreservesNonLetter(if |b| > 0 then b[0] else '.', '.');
    LowerCharPreservesNonLetter(if |b| > 1 then b[1] else '.', '.');
    if |b| == 2 {
      assert Lower(b) == [LowerChar(b[0]), LowerChar(b[1])];
    }
  }

  lemma ExtNameCommutesWithLower(p: string)
    ensures ExtName(Lower(p)) == Lower(ExtName(p))
  {
    LastComponentCommutesWithLower(p);
    var b := LastComponent(p);
    var lb := LastComponent(Lower(p));
    assert lb == Lower(b);
    LastIndexOfCommutesWithLower(b, '.');
    var d := LastIndexOf(b, '.');
    assert LastIndexOf(lb, '.') == d;
    LowerIsDotDot(b);
    if d > 0 && b != ".." {
      LowerSlices(b, d);
      assert ExtName(Lower(p)) == lb[d..];
    } else {
      assert ExtName(Lower(p)) == "";
    }
  }
}

=== FILE: results.dfy ===
/** Optional values and success/failure values shared by the whole model. */
module Results {

  /** A value that may be absent (a JavaScript `undefined`). */
  datatype Option<+T> = None | Some(value: T)

  /** The outcome of a step that can fail with an error value. */
  datatype Result<+T, +E> = Ok(value: T) | Err(error: E)
}

=== FILE: sequences.dfy ===
/** `Array.prototype.filter` and the order-preservation notion it satisfies. */
module Sequences {

  /** Keeps, in order, the elements of `s` that satisfy `p`. */
  function Filter<T(==,!new)>(s: seq<T>, p: T -> bool): (r: seq<T>)
    ensures |r| <= |s|
    ensures forall x :: multiset(r)[x] == if p(x) then multiset(s)[x] else 0
    ensures forall x :: x in r <==> x in s && p(x)
  {
    if s == [] then []
    else
      assert s == [s[0]] + s[1..];
      if p(s[0]) then [s[0]] + Filter(s[1..], p) else Filter(s[1..], p)
  }

  /** `a` is obtained from `b` by deleting elements, keeping the relative order of the rest. */
  predicate IsSubsequence<T(==,!new)>(a: seq<T>, b: seq<T>)
    decreases |b|
  {
    && |a| <= |b|
    && (a == [] ||
        (b != [] && ((a[0] == b[0] && IsSubsequence(a[1..], b[1..])) || IsSubsequence(a, b[1..]))))
  }

  /** Filtering never reorders. */
  lemma {:induction false} FilterIsSubsequence<T(!new)>(s: seq<T>, p: T -> bool)
    ensures IsSubsequence(Filter(s, p), s)
  {
    if s != [] {
      FilterIsSubsequence(s[1..], p);
      if p(s[0]) {
        assert Filter(s, p)[1..] == Filter(s[1..], p);
      }
    }
  }

  /** Removing the element at index `k` keeps the relative order of the rest. */
  lemma {:induction false} RemoveAtIsSubsequence<T(!new)>(s: seq<T>, k: nat)
    requires k < |s|
    ensures IsSubsequence(s[..k] + s[k + 1..], s)
  {
    var r := s[..k] + s[k + 1..];
    if k == 0 {
      assert r == s[1..];
      SubsequenceOfTail(s[1..], s);
    } else {
      RemoveAtIsSubsequence(s[1..], k - 1);
      assert r[0] == s[0];
      assert r[1..] == s[1..][..k - 1] + s[1..][k..];
    }
  }

  lemma {:induction false} SubsequenceReflexive<T(!new)>(s: seq<T>)
    ensures IsSubsequence(s, s)
  {
    if s != [] {
      SubsequenceReflexive(s[1..]);
    }
  }

  lemma SubsequenceOfTail<T(!new)>(t: seq<T>, s: seq<T>)
    requires s != [] && t == s[1..]
    ensures IsSubsequence(t, s)
  {
    SubsequenceReflexive(t);
  }

  /** Two sequences with the same elements (with multiplicity) keep that
      property under the same filter. */
  lemma FilterRespectsMultiset<T(!new)>(a: seq<T>, b: seq<T>, p: T -> bool)
    requires multiset(a) == multiset(b)
    ensures multiset(Filter(a, p)) == multiset(Filter(b, p))
    ensures |Filter(a, p)| == |Filter(b, p)|
  {
    var fa, fb := Filter(a, p), Filter(b, p);
    assert forall x :: multiset(fa)[x] == multiset(fb)[x];
    assert multiset(fa) == multiset(fb);
    assert |fa| == |multiset(fa)| == |multiset(fb)| == |fb|;
  }

  /** Filtering depends only on which elements the predicate keeps. */
  lemma {:induction false} FilterCongruence<T(!new)>(s: seq<T>, p: T -> bool, q: T -> bool)
    requires forall x :: p(x) == q(x)
    ensures Filter(s, p) == Filter(s, q)
  {
    if s != [] {
      FilterCongruence(s[1..], p, q);
    }
  }
}

=== FILE: strings.dfy ===
/** String helpers with the semantics of the JavaScript built-ins the portal uses. */
module Strings {

  /** An ASCII upper-case letter. */
  predicate IsUpper(c: char) {
    'A' <= c <= 'Z'
  }

  /** One character of `toLowerCase`, on ASCII letters. */
  function LowerChar(c: char): char {
    if IsUpper(c) then (c as int - 'A' as int + 'a' as int) as char else c
  }

  /** `String.prototype.toLowerCase`, restricted to the ASCII letters. */
  function Lower(s: string): (r: string)
    ensures |r| == |s|
    ensures forall i :: 0 <= i < |s| ==> r[i] == LowerChar(s[i])
  {
    if s == [] then [] else [LowerChar(s[0])] + Lower(s[1..])
  }

  /** Lower-casing leaves no upper-case letter behind and is idempotent. */
  lemma LowerIsIdempotent(s: string)
    ensures forall i :: 0 <= i < |s| ==> !IsUpper(Lower(s)[i])
    ensures Lower(Lower(s)) == Lower(s)
  {
  }

  /** Lower-casing commutes with taking a suffix or a prefix. */
  lemma LowerSlices(s: string, a: nat)
    requires a <= |s|
    ensures Lower(s[a..]) == Lower(s)[a..]
    ensures Lower(s[..a]) == Lower(s)[..a]
  {
  }

  /** `p` occurs in `s` starting at index `i`. */
  predicate OccursAt(s: string, p: string, i: int) {
    0 <= i && i + |p| <= |s| && s[i..i + |p|] == p
  }

  predicate StartsWith(s: string, p: string) {
    |p| <= |s| && s[..|p|] == p
  }

  /** Unanchored search: `p` occurs somewhere in `s`, as a regular expression without anchors matches. */
  function Contains(s: string, p: string): bool
    decreases |s|
  {
    StartsWith(s, p) || (|s| > 0 && Contains(s[1..], p))
  }

  /** The scan finds `p` exactly when `p` occurs at some position of `s`. */
  lemma {:induction false} ContainsIffOccurs(s: string, p: string)
    ensures Contains(s, p) <==> exists i :: OccursAt(s, p, i)
    decreases |s|
  {
    if Contains(s, p) {
      if StartsWith(s, p) {
        assert OccursAt(s, p, 0);
      } else {
        ContainsIffOccurs(s[1..], p);
        var i :| OccursAt(s[1..], p, i);
        assert s[1..][i..i + |p|] == s[i + 1..i + 1 + |p|];
        assert OccursAt(s, p, i + 1);
      }
    }
    if exists i :: OccursAt(s, p, i) {
      var i :| OccursAt(s, p, i);
      if i > 0 {
        assert s[1..][i - 1..i - 1 + |p|] == s[i..i + |p|];
        assert OccursAt(s[1..], p, i - 1);
        ContainsIffOccurs(s[1..], p);
      }
    }
  }

  /** An occurrence of `p` at `i` puts each character of `p` at its offset from `i`. */
  lemma OccurrenceHasChar(s: string, p: string, i: int, k: nat)
    requires k < |p|
    ensures OccursAt(s, p, i) ==> 0 <= i + k < |s| && s[i + k] == p[k]
  {
    if OccursAt(s, p, i) {
      assert s[i..i + |p|][k] == p[k];
    }
  }

  predicate IsDigit(c: char) {
    '0' <= c <= '9'
  }

  predicate AllDigits(s: string) {
    forall i :: 0 <= i < |s| ==> IsDigit(s[i])
  }

  function DigitChar(d: nat): (c: char)
    requires d < 10
    ensures IsDigit(c)
  {
    ('0' as int + d) as char
  }

  /** Base-10 rendering of a natural number, as JavaScript's number-to-string
      conversion produces it for integers below 10^21. */
  function Decimal(n: nat): (r: string)
    ensures |r| > 0 && AllDigits(r)
    ensures r[0] == '0' ==> n == 0
    decreases n
  {
    if n < 10 then [DigitChar(n)] else Decimal(n / 10) + [DigitChar(n % 10)]
  }

  /** The number a string of decimal digits denotes. */
  function DigitsValue(s: string): nat
    requires AllDigits(s)
  {
    if s == [] then 0 else DigitsValue(s[..|s| - 1]) * 10 + (s[|s| - 1] as int - '0' as int)
  }

  /** Reading back a rendered number gives the number. */
  lemma {:induction false} DecimalRoundTrip(n: nat)
    ensures DigitsValue(Decimal(n)) == n
    decreases n
  {
    if n >= 10 {
      var r := Decimal(n);
      assert r[..|r| - 1] == Decimal(n / 10);
      DecimalRoundTrip(n / 10);
    }
  }

  /** Length of the longest all-digit prefix of `s`. */
  function DigitPrefixLength(s: string): (k: nat)
    ensures k <= |s| && AllDigits(s[..k])
    ensures k < |s| ==> !IsDigit(s[k])
  {
    if s == [] || !IsDigit(s[0]) then 0 else 1 + DigitPrefixLength(s[1..])
  }

  /** The all-digit prefix is the one that ends at the first non-digit. */
  lemma DigitPrefixUnique(s: string, m: nat)
    requires m <= |s| && AllDigits(s[..m])
    requires m < |s| ==> !IsDigit(s[m])
    ensures DigitPrefixLength(s) == m
    decreases m
  {
    if m > 0 {
      assert IsDigit(s[..m][0]);
      assert s[1..][..m - 1] == s[..m][1..];
      DigitPrefixUnique(s[1..], m - 1);
    }
  }

  /** Index of the first `c` in `s`, or `|s|` when there is none. */
  function IndexOf(s: string, c: char): (k: nat)
    ensures k <= |s|
    ensures k < |s| ==> s[k] == c
    ensures forall j :: 0 <= j < k ==> s[j] != c
  {
    if s == [] then 0 else if s[0] == c then 0 else 1 + IndexOf(s[1..], c)
  }

  /** Index of the last `c` in `s`, or -1 when there is none. */
  function LastIndexOf(s: string, c: char): (k: int)
    ensures -1 <= k < |s|
    ensures k >= 0 ==> s[k] == c
    ensures forall j :: k < j < |s| ==> s[j] != c
  {
    if s == [] then -1
    else if s[|s| - 1] == c then |s| - 1
    else LastIndexOf(s[..|s| - 1], c)
  }

  /** `String.prototype.replace` with a one-character string pattern:
      only the first occurrence of `from` is replaced. */
  function ReplaceFirst(s: string, from: char, to: char): (r: string)
    ensures |r| == |s|
    ensures forall j :: 0 <= j < |s| ==> r[j] == (if j == IndexOf(s, from) then to else s[j])
  {
    if s == [] then []
    else if s[0] == from then [to] + s[1..]
    else [s[0]] + ReplaceFirst(s[1..], from, to)
  }
}

=== FILE: upload.dfy ===
/** The multer configuration of the issue routes: which uploads are accepted
    and under which public path an accepted image is stored. */
module Upload {
  import opened Results
  import opened Strings
  import opened NodePath

  /** The `limits.fileSize` ceiling, in bytes. */
  const MaxFileSize: nat := 5000000

  /** The alternatives of the pattern `/jpeg|jpg|png|gif/`. */
  const ImageTypes: seq<string> := ["jpeg", "jpg", "png", "gif"]

  /** Public prefix of stored images. */
  const UploadsPrefix: string := "/uploads/"

  /** What multer knows about an uploaded file before accepting it: its
      `file.originalname`, its `file.mimetype` and its size. These are the values
      after the multipart parser has normalised the part's headers (see
      `ReceivedFile`), not the raw values the client declared. */
  datatype UploadedFile = UploadedFile(originalName: string, mimeType: string, size: nat)

  /** The file as multer reports it for a part whose declared name, content type
      and size are given: the multipart parser lower-cases the declared content
      type, so `file.mimetype` holds no upper-case letter. */
  function ReceivedFile(name: string, declaredType: string, size: nat): (f: UploadedFile)
    ensures f.originalName == name && f.size == size && |f.mimeType| == |declaredType|
    ensures forall i :: 0 <= i < |f.mimeType| ==> !IsUpper(f.mimeType[i])
  {
    LowerIsIdempotent(declaredType);
    UploadedFile(name, Lower(declaredType), size)
  }

  /** Why multer refused an upload: the file filter's "Images only!" error
      or the size limit. */
  datatype UploadError = ImagesOnly | FileTooLarge

  /** `/jpeg|jpg|png|gif/.test(s)`: an unanchored search for any alternative. */
  predicate MatchesImagePattern(s: string) {
    Contains(s, "jpeg") || Contains(s, "jpg") || Contains(s, "png") || Contains(s, "gif")
  }

  /** Some allowed image type occurs somewhere inside `s`. */
  ghost predicate MentionsImageType(s: string) {
    exists t, i :: t in ImageTypes && OccursAt(s, t, i)
  }

  lemma PatternIsSubstringSearch(s: string)
    ensures MatchesImagePattern(s) <==> MentionsImageType(s)
  {
    ContainsIffOccurs(s, "jpeg");
    ContainsIffOccurs(s, "jpg");
    ContainsIffOccurs(s, "png");
    ContainsIffOccurs(s, "gif");
    if MentionsImageType(s) {
      var t, i :| t in ImageTypes && OccursAt(s, t, i);
      assert t == "jpeg" || t == "jpg" || t == "png" || t == "gif";
    }
  }

  /** The `fileFilter`: the lower-cased extension of the original name and the
      reported MIME type must each mention an image type. The filter lower-cases
      only the extension; the MIME type arrives lower-cased from the parser. */
  function FileFilter(f: UploadedFile): (accepted: bool)
    ensures accepted <==> MentionsImageType(Lower(ExtName(f.originalName))) && MentionsImageType(f.mimeType)
  {
    PatternIsSubstringSearch(Lower(ExtName(f.originalName)));
    PatternIsSubstringSearch(f.mimeType);
    MatchesImagePattern(Lower(ExtName(f.originalName))) && MatchesImagePattern(f.mimeType)
  }

  /** The disk-storage `filename`: upload time in milliseconds followed by the
      original extension, with its case kept. */
  function StoredFileName(uploadTime: nat, originalName: string): (name: string)
    ensures ParseImagePath(UploadsPrefix + name) == Some((uploadTime, ExtName(originalName)))
  {
    ImagePathRoundTrip(uploadTime, ExtName(originalName));
    Decimal(uploadTime) + ExtName(originalName)
  }

  /** The upload step in front of the create handler: no file gives the empty
      image path; a file is checked by the filter first and by the size limit
      while it streams, and an accepted file is published under "/uploads/". */
  function AcceptUpload(file: Option<UploadedFile>, uploadTime: nat): (r: Result<string, UploadError>)
    ensures file.None? ==> r == Ok("")
    ensures file.Some? && !FileFilter(file.value) ==> r == Err(ImagesOnly)
    ensures file.Some? && FileFilter(file.value) && file.value.size > MaxFileSize ==> r == Err(FileTooLarge)
    ensures file.Some? ==> (r.Ok? <==> FileFilter(file.value) && file.value.size <= MaxFileSize)
    ensures file.Some? && r.Ok? ==>
      r.value == UploadsPrefix + (Decimal(uploadTime) + ExtName(file.value.originalName))
    ensures file.Some? && r.Ok? ==>
      ParseImagePath(r.value) == Some((uploadTime, ExtName(file.value.originalName)))
  {
    match file
    case None => Ok("")
    case Some(f) =>
      if !FileFilter(f) then Err(ImagesOnly)
      else if f.size > MaxFileSize then Err(FileTooLarge)
      else
        ImagePathRoundTrip(uploadTime, ExtName(f.originalName));
        Ok(UploadsPrefix + StoredFileName(uploadTime, f.originalName))
  }

  /** Reads a stored image path back into its upload time and extension. */
  function ParseImagePath(path: string): Option<(nat, string)> {
    if !StartsWith(path, UploadsPrefix) then None
    else
      var rest := path[|UploadsPrefix|..];
      var k := DigitPrefixLength(rest);
      if k == 0 then None else Some((DigitsValue(rest[..k]), rest[k..]))
  }

  /** A stored path determines the upload time and the extension it was built from. */
  lemma ImagePathRoundTrip(uploadTime: nat, ext: string)
    requires ext == [] || ext[0] == '.'
    ensures ParseImagePath(UploadsPrefix + (Decimal(uploadTime) + ext)) == Some((uploadTime, ext))
  {
    var digits := Decimal(uploadTime);
    var path := UploadsPrefix + (digits + ext);
    assert path[..|UploadsPrefix|] == UploadsPrefix;
    var rest := path[|UploadsPrefix|..];
    assert rest == digits + ext;
    assert rest[..|digits|] == digits;
    DigitPrefixUnique(rest, |digits|);
    var k := |digits|;
    assert rest[k..] == ext;
    DecimalRoundTrip(uploadTime);
  }

  /** The file name's case does not matter to the filter. */
  lemma FilterIgnoresNameCase(f: UploadedFile)
    ensures FileFilter(f) == FileFilter(f.(originalName := Lower(f.originalName)))
  {
    ExtNameCommutesWithLower(f.originalName);
    LowerIsIdempotent(ExtName(f.originalName));
  }

  /** A non-empty last path component, the part of a name before its extension. */
  predicate PlainStem(stem: string) {
    stem != [] && forall i :: 0 <= i < |stem| ==> stem[i] != '/'
  }

  lemma LowerOfJpg()
    ensures Lower(".JPG") == ".jpg"
    ensures OccursAt(".jpg", "jpg", 1)
  {
  }

  lemma LowerOfPng()
    ensures Lower(".png") == ".png"
    ensures OccursAt(".png", "png", 1)
  {
  }

  lemma LowerOfJpgx()
    ensures Lower(".jpgx") == ".jpgx"
    ensures OccursAt(".jpgx", "jpg", 1)
  {
  }

  /** A name "stem.ext" passes the filter when its lower-cased extension and its
      MIME type each mention an image type. */
  lemma DottedNameAccepted(stem: string, ext: string, mimeType: string, size: nat)
    requires PlainStem(stem) && ext != []
    requires forall i :: 0 <= i < |ext| ==> ext[i] != '.' && ext[i] != '/'
    requires MentionsImageType(Lower("." + ext)) && MentionsImageType(mimeType)
    ensures FileFilter(UploadedFile(stem + "." + ext, mimeType, size))
  {
    assert |stem + "." + ext| >= 3;
    ExtNameOfDottedName(stem, ext);
  }

  /** An upper-case extension is accepted, with any MIME type that mentions an image type. */
  lemma UpperCaseExtensionAccepted(stem: string, mimeType: string, size: nat)
    requires PlainStem(stem) && MentionsImageType(mimeType)
    ensures FileFilter(UploadedFile(stem + "." + "JPG", mimeType, size))
  {
    LowerOfJpg();
    DottedNameAccepted(stem, "JPG", mimeType, size);
  }

  /** The search is unanchored, so an extension that merely contains "jpg" is accepted. */
  lemma ExtensionContainingTypeAccepted(stem: string, mimeType: string, size: nat)
    requires PlainStem(stem) && MentionsImageType(mimeType)
    ensures FileFilter(UploadedFile(stem + "." + "jpgx", mimeType, size))
  {
    LowerOfJpgx();
    DottedNameAccepted(stem, "jpgx", mimeType, size);
  }

  /** A name without a '.' ("photo") and a hidden file with nothing after its
      leading '.' (".png") are refused, whatever their MIME type. */
  lemma MissingExtensionRejected(stem: string, ext: string, mimeType: string, size: nat)
    requires forall i :: 0 <= i < |stem| ==> stem[i] != '.' && stem[i] != '/'
    requires forall i :: 0 <= i < |ext| ==> ext[i] != '.' && ext[i] != '/'
    ensures !FileFilter(UploadedFile(stem, mimeType, size))
    ensures !FileFilter(UploadedFile("." + ext, mimeType, size))
  {
    NoExtensionIsRejected(UploadedFile(stem, mimeType, size));
    var hidden := "." + ext;
    assert forall i :: 0 < i < |hidden| ==> hidden[i] == ext[i - 1];
    NoExtensionIsRejected(UploadedFile(hidden, mimeType, size));
  }

  /** Lower-casing cannot produce 'j', 'p' or 'g' from a character that is none of
      "jpgJPG". */
  lemma LowerAvoidsImageLetters(s: string)
    requires forall i :: 0 <= i < |s| ==> s[i] !in "jpgJPG"
    ensures forall i :: 0 <= i < |Lower(s)| ==> Lower(s)[i] != 'j' && Lower(s)[i] != 'p' && Lower(s)[i] != 'g'
  {
  }

  /** An extension without the letters j, p and g, in either case, is refused
      whatever MIME type the file declares; "exe" is one. */
  lemma ExecutableRejected(stem: string, ext: string, mimeType: string, size: nat)
    requires PlainStem(stem)
    requires ext != []
    requires forall i :: 0 <= i < |ext| ==> ext[i] != '.' && ext[i] != '/' && ext[i] !in "jpgJPG"
    ensures !FileFilter(UploadedFile(stem + "." + ext, mimeType, size))
  {
    assert |stem + "." + ext| >= 3;
    ExtNameOfDottedName(stem, ext);
    DottedExtensionHasNoImageType(ext);
  }

  /** ".ext" for an `ext` without j, p or g in either case mentions no image type
      once lower-cased. */
  lemma DottedExtensionHasNoImageType(ext: string)
    requires forall i :: 0 <= i < |ext| ==> ext[i] !in "jpgJPG"
    ensures !MentionsImageType(Lower("." + ext))
  {
    var dotted := "." + ext;
    assert forall i :: 0 <= i < |dotted| ==> dotted[i] !in "jpgJPG" by {
      assert forall i :: 0 < i < |dotted| ==> dotted[i] == ext[i - 1];
    }
    LowerAvoidsImageLetters(dotted);
    NoImageType(Lower(dotted));
  }

  /** The filter's own MIME test is case-sensitive: a `file.mimetype` of
      "IMAGE/PNG" would be refused. It is the parser's lower-casing in
      `ReceivedFile` that lets a part declared as "IMAGE/PNG" through. */
  lemma UpperCaseMimeTypeRejected()
    ensures !FileFilter(UploadedFile("photo.png", "IMAGE/PNG", 1000))
  {
    NoImageType("IMAGE/PNG");
  }

  /** The case of the declared content type does not matter to the filter. */
  lemma DeclaredTypeCaseIgnored(name: string, declaredType: string, size: nat)
    ensures FileFilter(ReceivedFile(name, declaredType, size))
        == FileFilter(ReceivedFile(name, Lower(declaredType), size))
  {
    LowerIsIdempotent(declaredType);
  }

  lemma LowerOfImagePng()
    ensures Lower("IMAGE/PNG") == "image/png"
    ensures OccursAt("image/png", "png", 6)
  {
  }

  /** A ".png" file declared as "IMAGE/PNG" is accepted, since multer sees "image/png". */
  lemma UpperCaseDeclaredTypeAccepted(stem: string, size: nat)
    requires PlainStem(stem)
    ensures FileFilter(ReceivedFile(stem + "." + "png", "IMAGE/PNG", size))
  {
    LowerOfImagePng();
    assert MentionsImageType("image/png") by {
      assert "png" in ImageTypes;
    }
    PngPassesFilter(stem, "image/png", size);
  }

  /** A name whose last component has no usable '.' has an empty extension, and an
      empty extension mentions no image type. */
  lemma NoExtensionIsRejected(f: UploadedFile)
    requires forall i :: 0 < i < |f.originalName| ==> f.originalName[i] != '.'
    requires forall i :: 0 <= i < |f.originalName| ==> f.originalName[i] != '/'
    ensures !FileFilter(f)
  {
    var p := f.originalName;
    var t := TrimTrailingSlashes(p);
    assert t == p;
    assert LastIndexOf(t, '/') == -1;
    assert LastComponent(p) == p;
    assert ExtName(p) == "";
    assert Lower("") == "";
    NoImageType("");
  }

  /** A string in which none of the letters 'j', 'p' and 'g' occurs mentions no
      image type, since every image type starts with one of them; this covers
      ".exe", "IMAGE/PNG" and "". */
  lemma NoImageType(s: string)
    requires forall i :: 0 <= i < |s| ==> s[i] != 'j' && s[i] != 'p' && s[i] != 'g'
    ensures !MentionsImageType(s)
  {
    forall t, i | t in ImageTypes
      ensures !OccursAt(s, t, i)
    {
      OccurrenceHasChar(s, t, i, 0);
    }
  }

  /** The MIME type "image/gif" mentions an image type. */
  lemma GifMimeTypeMentionsImageType()
    ensures MentionsImageType("image/gif")
  {
    assert OccursAt("image/gif", "gif", 6);
  }

  /** A ".png" file passes the filter whatever its size, with any MIME type that
      mentions an image type: the two checks are independent, so the MIME type
      need not name the same family ("image/gif" will do). */
  lemma PngPassesFilter(stem: string, mimeType: string, size: nat)
    requires PlainStem(stem) && MentionsImageType(mimeType)
    ensures FileFilter(UploadedFile(stem + "." + "png", mimeType, size))
  {
    LowerOfPng();
    DottedNameAccepted(stem, "png", mimeType, size);
  }

  /** The size limit is inclusive: 5,000,000 bytes pass and one more byte does not. */
  lemma SizeLimitIsInclusive(stem: string, mimeType: string, now: nat)
    requires PlainStem(stem) && MentionsImageType(mimeType)
    ensures AcceptUpload(Some(UploadedFile(stem + "." + "png", mimeType, MaxFileSize)), now).Ok?
    ensures AcceptUpload(Some(UploadedFile(stem + "." + "png", mimeType, MaxFileSize + 1)), now) == Err(FileTooLarge)
  {
    PngPassesFilter(stem, mimeType, MaxFileSize);
    PngPassesFilter(stem, mimeType, MaxFileSize + 1);
  }

  /** A 6,000,000-byte image is refused; a 100,000-byte one is stored under a non-empty path. */
  lemma SizeExamples(stem: string, mimeType: string, now: nat)
    requires PlainStem(stem) && MentionsImageType(mimeType)
    ensures AcceptUpload(Some(UploadedFile(stem + "." + "png", mimeType, 6000000)), now) == Err(FileTooLarge)
    ensures AcceptUpload(Some(UploadedFile(stem + "." + "png", mimeType, 100000)), now).value != ""
  {
    PngPassesFilter(stem, mimeType, 6000000);
    PngPassesFilter(stem, mimeType, 100000);
  }
}
